=== FILE: README.md ===
# Saper engine in Dafny

A model of the game engine in `saper.py`, a console minesweeper. The model
covers four parts, each as pure functions over an immutable grid:

- **Board construction.** A grid of fields is built, and bombs are written over
  it at the drawn coordinates. Each cell's `value` is then set to the number of
  bombs among its on-board eight neighbours. Bombs get a value too.
- **Cells.** A `Field` and its subclass `Bomb` are one `Cell` record with an
  `isBomb` tag. Both kinds share `reveal`. They differ in `shoot` and in `show`.
- **The flood fill `_shoot`.** It reveals the target. Each time a cell agrees
  to be revealed, it goes on into that cell's orthogonal neighbours with
  non-negative coordinates. Cells are looked up with `get_cell`, which uses
  Python list indexing, so a negative coordinate wraps to the far end.
- **Turns.** `move` reads a line of text into coordinates. `_make_move`
  counts the move, floods, shoots the target, and then loses, wins or goes on.
  `_check_win` compares the number of uncovered cells, bombs included, with
  `width*height - n_bombs`, where `n_bombs` is the requested count.
  `is_open` says whether the game is still undecided.

Modules: `Wrappers` (`Option`), `Numerals` (`lower`, `count`, `int()` and
`str()` on text), `Cells`, `Board`, `Flood`, `Generation` and `Saper` (the
`Game` class).

Some behaviours of the code are easy to mistake for bugs, and the model keeps
them:

- A bomb of value 0 or 1 is uncovered by the flood fill, which then spreads
  from it.
- A field's `show` ignores its `reveal` argument.
- The win test counts uncovered bombs too, and it uses the requested number of
  bombs, not the number placed.

Coordinates are two 1-based numbers around an `x`. The code enforces no
maximum board size.

A zero divisor in `_check_win` raises `ZeroDivisionError` in Python, and
nothing catches it. The model reports this case as `DivisionByZero` instead
of forbidding it. A draw list longer than the board gives a negative divisor,
and then the game can never be won.

## Model

| member | source | states |
|---|---|---|
| Cells.Reveal | saper.py:152-156 | the verdict is true exactly for value 0 or 1; then the cell becomes uncovered, otherwise nothing changes; no field but `uncovered` ever changes |
| Cells.Shoot | saper.py:148-150 | a field is uncovered and reports no bomb; a bomb reports a hit and is left exactly as it was |
| Cells.Neighbours | saper.py:139-142 | the neighbours are exactly the orthogonally adjacent positions with both coordinates non-negative, with no upper bound |
| Cells.ShowVisibility | saper.py:144-146 | a cell shows the cover `#` exactly when it is a bomb and the flag is off, or a field that is covered; an uncovered field with a non-zero count shows text that reads back as that count; a bomb under the flag shows `*` whether uncovered or not |
| Cells.Show | saper.py:144-146 | with `Bomb.show` (lines 166-167) for the bomb case: a cell is drawn in colour exactly when it is a bomb with the flag on or an uncovered field, and otherwise as the cover `#`; the `BombRed` tag is used exactly for a bomb under the flag |
| Cells.NewCell | saper.py:129-133 | a new cell records its position and kind, has value 0 and is covered |
| Board.GetCell | saper.py:117-121 | `None` exactly when a coordinate lies outside `[-size, size)`; otherwise the cell at the Python-normalised indices, which records that normalised position |
| Board.GetCellWraps | saper.py:117-121 | a position one full width left or one full height up finds the same cell; one full size right or down finds none |
| Board.UncoverShrinksCovered | saper.py:152-155 | uncovering one covered cell removes exactly its position from the covered set |
| Flood.Shoot | saper.py:57-61 | the flood only flips `uncovered` from false to true, only on cells of value 0 or 1; it changes nothing when there is no cell, the cell is uncovered or its value is above 1; otherwise the target ends up uncovered; the covered set never grows |
| Flood.ShootAll | saper.py:59-61 | shooting the neighbours in turn only uncovers cells of value 0 or 1 and never enlarges the covered set |
| Flood.ShootClosed | saper.py:57-61 | every cell the flood uncovered has all its non-negative orthogonal neighbours settled: each on-board one of value 0 or 1 is uncovered |
| Flood.ShootSound | saper.py:57-61 | every cell the flood uncovered is reached from the target's position by a walk through covered cells of value 0 or 1 |
| Flood.ShootFloodsRegion | saper.py:57-61 | for a target the flood does not stop at, a cell ends up uncovered exactly when it already was, or such a walk reaches it from the target |
| Flood.ShootCoveredCount | saper.py:57-61 | the number of covered cells never rises, and it falls whenever the flood does not stop at once, so the recursion terminates |
| Generation.Blank | saper.py:81 | the starting grid has the requested size and holds at each position a covered field recording that position |
| Generation.PlaceBombs | saper.py:83-84 | a cell is a fresh bomb exactly when its position was drawn; every other cell is kept |
| Generation.GeneratePlacesDraws | saper.py:80-84 | after construction a cell is a bomb exactly when its position was drawn; the bomb set is the set of draws, so repeated draws collapse and there are never more bombs than draws |
| Generation.OffsetsAround | saper.py:73-78 | the offsets tried are exactly the eight neighbours of the origin |
| Generation.ProbeHitsAround | saper.py:89-93 | the probes hit exactly the bombs among the on-board eight neighbours; a probe at a negative or too-large index misses and never wraps |
| Generation.CountProbesCard | saper.py:87-95 | when no offset repeats, the counting loop counts each probed bomb once |
| Generation.CountProbes | saper.py:87-95 | the count is at most the number of offsets, and zero exactly when no offset's probe hits a bomb |
| Generation.SetValues | saper.py:85-95 | the board keeps its size and every cell keeps its position, kind and covering; only its value changes, to the number of bombs among its on-board eight neighbours |
| Generation.Generate | saper.py:80-97 | the board has the requested size, and every cell is covered and records its own position |
| Generation.GenerateCounts | saper.py:85-95 | every cell's value, bombs included, is the number of bombs among its on-board eight neighbours |
| Saper.NewGame | saper.py:7-16 | a new game has the requested size, is open, has made no moves, has as many requested bombs as draws, and starts on the board built from those draws |
| Saper.NewGameBoard | saper.py:15 | on a new game's board every cell is covered, a cell is a bomb exactly where a draw fell, and its value is the number of bombs among its on-board eight neighbours |
| Saper.CheckWin | saper.py:63-65 | there is no verdict exactly when the divisor `width*height - n_bombs` is zero; a win needs fewer bombs than cells |
| Saper.CheckWinCovered | saper.py:63-65 | the game is won exactly when the divisor is not zero and the number of still-covered cells equals the number of bombs requested |
| Saper.UncoveredCount | saper.py:64 | the uncovered count plus the number of covered positions is the number of cells |
| Saper.UncoveredGrows | saper.py:64 | a board that only grew has at least as many uncovered cells, so progress never goes back |
| Saper.MakeMove | saper.py:42-55 | the move counter rises by exactly one and the bomb count is kept; the board only grows; the turn never reports a parse error; `won` becomes true on a win and false on a loss, and otherwise stays as it was |
| Saper.MakeMoveOutcome | saper.py:42-55 | with no cell at the target, the turn is a range error that changes only the counter; on a bomb it is lost, and the board is as the flood left it; on a field, the board is the flooded board with that one field uncovered, and the turn is won exactly when the win test holds |
| Saper.IsOpen | saper.py:123-125 | a game is open exactly while it has been neither won nor lost |
| Saper.MakeMoveCloses | saper.py:21-29 | on an open game a turn closes it exactly when it wins or loses, and a loss sets `won` to false |
| Saper.ParseMove | saper.py:32-38 | a line is refused for format exactly when, lower-cased, it holds a number of `x` other than one |
| Saper.ParseLowered | saper.py:33-35 | a lower-cased line is refused for format exactly when it holds a number of `x` other than one |
| Saper.Move | saper.py:31-40 | the format error happens exactly when the lower-cased line has a number of `x` other than one; a refused line leaves the game unchanged; any other line counts one move; the board only grows |
| Saper.ParseSplits | saper.py:32-38 | a line whose only `x` or `X` separates two halves reads as the two halves, each lower-cased and parsed as an integer, less one; it is refused as not a number when either half fails to parse |
| Saper.MoveReadsCoordinates | saper.py:31-40 | the decimal forms of `x + 1` and `y + 1` around `x` or `X`, with whitespace padding, read back as `(x, y)`, and the turn is the move played there |
| Saper.MoveNeedsBothNumbers | saper.py:36-40 | a line whose only `x` or `X` has an empty or blank half on one side is refused as not a number, and the game is unchanged |
| Numerals.ParseIntText | saper.py:38 | `int()` reads back what `str()` writes, with any whitespace around it, for every integer the model's unbounded `int()` accepts (in CPython, those of at most 4300 digits) |
| Numerals.BlankIsNotANumber | saper.py:38-40 | `int()` rejects an empty or all-whitespace string |
| Numerals.PlainNumeral | saper.py:38 | a plain run of digits is a valid numeral made of exactly those digits |
| Numerals.LowerAround | saper.py:32 | lower-casing text around a separator lower-cases each half and the separator on its own; when the halves have no capitals only the separator changes |
| Numerals.SplitAround | saper.py:33-37 | a string with one separator and none in either half counts it once, finds it just after the first half, and splits back into the two halves |
| Numerals.Count | saper.py:33 | the count is the character's multiplicity in the text, so it is zero exactly when the character does not occur and never more than the length |
| Numerals.Lower | saper.py:32 | the lower-cased text has the same length, and each character is the original one lower-cased |
| Numerals.ParseInt | saper.py:38 | a number is read only from text that, stripped of whitespace, is non-empty and starts with a digit or a sign; a negative result needs a leading minus |
| Numerals.IndexOf | saper.py:36 | the position found holds the character, and no earlier position does |

## Left out

- Console input and output are not modelled. This covers `input()`, `print`,
  `printc`, `color`, clearing the screen, `_show`, `_show_matrix`,
  `_show_stats` and `start`. The line `move` reads is a parameter, and each
  turn returns a `Report` naming the message or screen it would print.
- The main loop at the end of the file is not modelled. It calls `move` while
  `is_open` holds. As in the code, nothing in `Game` itself refuses a move
  after the game is decided.
- `randint` is replaced by a given list of in-range draws. `n_bombs` is the
  length of that list.
- The float `progress` is not modelled. The win test is stated as integer
  equality of the uncovered count with `width*height - n_bombs`. The two agree
  whenever the counts are below 2^53, which any board that fits in memory
  satisfies.
- Colours are opaque tags (`Tint`). The colour choice in `_get_color`, the
  `Colors` constants, `__str__` and `__repr__` are not modelled. Distinct tags
  need not be distinct colours: `ValueTint(0)` and `ValueTint(v)` for `v` of 5
  or more are the same red as `BombRed`.
- The `corners=False` branch of `_get_neighbours` is not modelled, because
  nothing calls it.
- Numerals.ParseInt: models `int()` on ASCII text only. It accepts an optional
  sign, decimal digits with single underscores between them, and surrounding
  space and tab through carriage return. Unicode digits and Unicode whitespace
  are not modelled. In a non-ASCII string, CPython first turns Unicode
  whitespace into a space and Unicode digits into ASCII digits. The model
  rejects every string holding a non-ASCII character.
  It has no digit limit: CPython 3.11 and later (and the security releases of
  3.7 to 3.10) raise `ValueError` for more than 4300 digits, which the model
  reads as a number.
- Numerals.ParseIntText: holds for every integer in the model. In CPython it
  holds only up to 4300 digits, because beyond that `str()` itself raises.
- Flood.Shoot: always completes. In Python `_shoot` recurses once per cell it
  uncovers, so a flood deeper than the default recursion limit of about 1000
  frames raises `RecursionError`, which `move` does not catch (it catches only
  `ValueError`). A bomb-free 40 by 30 board shot at `1x1` is one such case.
- Numerals.Lower: maps only ASCII capitals. Python's Unicode case mapping is not
  modelled.
- Saper.CheckWin: its contract does not restate the equality itself. The link
  between the count and the board is stated by `Saper.CheckWinCovered`.

=== FILE: board.dfy ===
/** The grid `Game._matrix`: a list of rows, each a list of cells, looked
    up with Python's list indexing. */
module Board {
  import opened Wrappers
  import opened Cells

  /** `rows[y][x]` is the cell at column `x`, row `y`. */
  datatype Board = Board(width: nat, height: nat, rows: seq<seq<Cell>>)

  /** `height` rows of `width` cells each, every cell recording the
      column and row it sits at. */
  predicate WellFormed(b: Board) {
    && |b.rows| == b.height
    && (forall y :: 0 <= y < b.height ==> |b.rows[y]| == b.width)
    && (forall y, x :: 0 <= y < b.height && 0 <= x < b.width ==>
          b.rows[y][x].x == x && b.rows[y][x].y == y)
  }

  predicate InRange(b: Board, x: int, y: int) {
    0 <= x < b.width && 0 <= y < b.height
  }

  function At(b: Board, x: int, y: int): Cell
    requires WellFormed(b) && InRange(b, x, y)
  {
    b.rows[y][x]
  }

  /** `s[i]` in Python: a negative index counts from the end, and an index
      outside `[-len(s), len(s))` raises `IndexError` (here `None`). */
  function PyIndex<T>(s: seq<T>, i: int): Option<T> {
    if 0 <= i < |s| then Some(s[i])
    else if -|s| <= i < 0 then Some(s[|s| + i])
    else None
  }

  /** The index Python actually reads for `i` in a list of length `n`. */
  function Wrap(i: int, n: nat): int {
    if i < 0 then i + n else i
  }

  /** `get_cell(x, y)`: `_matrix[y][x]`, or `None` on `IndexError`. A
      negative coordinate down to minus the size wraps round to the far
      end of its row or column. */
  function GetCell(b: Board, x: int, y: int): (r: Option<Cell>)
    requires WellFormed(b)
    ensures r.None? <==> !(-(b.height as int) <= y < b.height && -(b.width as int) <= x < b.width)
    ensures r.Some? ==> InRange(b, Wrap(x, b.width), Wrap(y, b.height))
    ensures r.Some? ==> r.value == At(b, Wrap(x, b.width), Wrap(y, b.height))
    ensures r.Some? ==> r.value.x == Wrap(x, b.width) && r.value.y == Wrap(y, b.height)
  {
    match PyIndex(b.rows, y)
    case None => None
    case Some(row) => PyIndex(row, x)
  }

  /** Every cell is found at its own position, and also one full width
      to the left of it and one full height above it. */
  lemma GetCellWraps(b: Board, x: int, y: int)
    requires WellFormed(b) && InRange(b, x, y)
    ensures GetCell(b, x, y) == Some(At(b, x, y))
    ensures GetCell(b, x - b.width, y) == GetCell(b, x, y)
    ensures GetCell(b, x, y - b.height) == GetCell(b, x, y)
    ensures GetCell(b, x + b.width, y).None? && GetCell(b, x, y + b.height).None?
  {
  }

  /** Stores `c` at the position it records, as the in-place mutation of a
      cell object does. */
  function Put(b: Board, c: Cell): (r: Board)
    requires WellFormed(b) && InRange(b, c.x, c.y)
    ensures WellFormed(r) && r.width == b.width && r.height == b.height
    ensures forall y, x :: InRange(b, x, y) ==>
              At(r, x, y) == if x == c.x && y == c.y then c else At(b, x, y)
  {
    b.(rows := b.rows[c.y := b.rows[c.y][c.x := c]])
  }

  /** Storing a cell back unchanged leaves the board as it was. */
  lemma PutSame(b: Board, x: int, y: int)
    requires WellFormed(b) && InRange(b, x, y)
    ensures Put(b, At(b, x, y)) == b
  {
    assert b.rows[y][x := b.rows[y][x]] == b.rows[y];
    assert b.rows[y := b.rows[y]] == b.rows;
  }

  /** `d` is `c`, except that a covered cell may have become uncovered. */
  predicate CellGrows(c: Cell, d: Cell) {
    d.(uncovered := c.uncovered) == c && (c.uncovered ==> d.uncovered)
  }

  /** `r` is `b` with some covered cells uncovered and nothing else changed. */
  ghost predicate Grows(b: Board, r: Board) {
    && WellFormed(b) && WellFormed(r)
    && r.width == b.width && r.height == b.height
    && forall y, x :: InRange(b, x, y) ==> CellGrows(At(b, x, y), At(r, x, y))
  }

  lemma GrowsReflexive(b: Board)
    requires WellFormed(b)
    ensures Grows(b, b)
  {
  }

  lemma PutGrows(b: Board, c: Cell)
    requires WellFormed(b) && InRange(b, c.x, c.y)
    requires CellGrows(At(b, c.x, c.y), c)
    ensures Grows(b, Put(b, c))
  {
  }

  lemma GrowsTransitive(a: Board, b: Board, c: Board)
    requires Grows(a, b) && Grows(b, c)
    ensures Grows(a, c)
  {
    forall y, x | InRange(a, x, y)
      ensures CellGrows(At(a, x, y), At(c, x, y))
    {
      assert CellGrows(At(a, x, y), At(b, x, y)) && CellGrows(At(b, x, y), At(c, x, y));
    }
  }

  /** The positions of the covered cells. */
  ghost function Covered(b: Board): set<(int, int)>
    requires WellFormed(b)
  {
    set x, y | 0 <= y < b.height && 0 <= x < b.width && !b.rows[y][x].uncovered :: (x, y)
  }

  /** Uncovering one covered cell removes exactly its position. */
  lemma UncoverShrinksCovered(b: Board, x: int, y: int)
    requires WellFormed(b) && InRange(b, x, y) && !At(b, x, y).uncovered
    ensures Covered(Put(b, At(b, x, y).(uncovered := true))) == Covered(b) - {(x, y)}
  {
    var r := Put(b, At(b, x, y).(uncovered := true));
    forall p | p in Covered(b) - {(x, y)}
      ensures p in Covered(r)
    {
      assert At(r, p.0, p.1) == At(b, p.0, p.1);
    }
    assert (x, y) in Covered(b);
  }
}

=== FILE: cells.dfy ===
/** The two cell classes, `Field` and its subclass `Bomb`, as one record
    with an `isBomb` tag. Both carry a position, a neighbour count and an
    `uncovered` flag; they share `reveal` and differ in `shoot` and `show`. */
module Cells {
  import Numerals

  /** `x` is the column and `y` the row the cell sits at. `value` is the
      number of bombs around it, set for bombs and fields alike. */
  datatype Cell = Cell(x: int, y: int, isBomb: bool, value: nat, uncovered: bool)

  /** A freshly constructed `Field(x, y)` or `Bomb(x, y)`: covered, value 0. */
  function NewCell(x: int, y: int, isBomb: bool): (c: Cell)
    ensures c.x == x && c.y == y && c.isBomb == isBomb
    ensures !c.uncovered && c.value == 0
  {
    Cell(x, y, isBomb, 0, false)
  }

  /** `reveal`, inherited unchanged by `Bomb`: a cell whose value is 0 or 1
      becomes uncovered and lets the flood fill go on; any other cell is
      left as it is and stops it. Returns the new cell and the verdict. */
  function Reveal(c: Cell): (r: (Cell, bool))
    ensures r.1 <==> c.value <= 1
    ensures r.0.uncovered <==> c.uncovered || r.1
    ensures r.0.(uncovered := c.uncovered) == c
  {
    if c.value <= 1 then (c.(uncovered := true), true) else (c, false)
  }

  /** `shoot`: a field hit by the player is uncovered whatever its value;
      a bomb reports the hit and stays as it is. Returns the new cell and
      whether it was a bomb. */
  function Shoot(c: Cell): (r: (Cell, bool))
    ensures r.1 == c.isBomb
    ensures r.1 ==> r.0 == c
    ensures !r.1 ==> r.0.uncovered && r.0.(uncovered := c.uncovered) == c
  {
    if c.isBomb then (c, true) else (c.(uncovered := true), false)
  }

  /** `get_neighbours`: the four orthogonal neighbours, left, right, up,
      down, with every negative coordinate dropped. Nothing bounds them
      from above: a neighbour past the last row or column is kept. */
  function Neighbours(x: int, y: int): (ns: seq<(int, int)>)
    ensures forall n :: n in ns <==> n.0 >= 0 && n.1 >= 0 && Orthogonal((x, y), n)
  {
    var all := [(x - 1, y), (x + 1, y), (x, y - 1), (x, y + 1)];
    Keep(all)
  }

  ghost predicate Orthogonal(p: (int, int), q: (int, int)) {
    (p.0 == q.0 && (p.1 - q.1 == 1 || q.1 - p.1 == 1)) ||
    (p.1 == q.1 && (p.0 - q.0 == 1 || q.0 - p.0 == 1))
  }

  function Keep(ps: seq<(int, int)>): (r: seq<(int, int)>)
    ensures forall n :: n in r <==> n in ps && n.0 >= 0 && n.1 >= 0
  {
    if |ps| == 0 then []
    else (if ps[0].0 >= 0 && ps[0].1 >= 0 then [ps[0]] else []) + Keep(ps[1..])
  }

  /** Colours are opaque: a tag naming the colour `_get_color` would pick
      for a value, or the red used for bombs. */
  datatype Tint = ValueTint(value: nat) | BombRed

  /** A rendered cell: bare text, or text wrapped in a colour. */
  datatype Glyph = Plain(text: string) | Tinted(text: string, tint: Tint)

  /** The count in decimal, or a single blank for 0. */
  function CountText(value: nat): string {
    if value == 0 then " " else Numerals.NatText(value)
  }

  /** `show(reveal)`, with the flag named `expose` here since `reveal` is a
      Dafny keyword. A field ignores the flag and shows its number (blank
      for 0) only once uncovered; a bomb ignores `uncovered` and shows `*`
      exactly when the flag is set. Everything else is the cover `#`. */
  function Show(c: Cell, expose: bool): (g: Glyph)
    ensures g.Tinted? <==> (if c.isBomb then expose else c.uncovered)
    ensures g.Plain? ==> g.text == "#"
    ensures g.Tinted? && g.tint == BombRed <==> c.isBomb && expose
  {
    if c.isBomb then
      (if expose then Tinted("*", BombRed) else Plain("#"))
    else if c.uncovered then
      Tinted(CountText(c.value), ValueTint(c.value))
    else Plain("#")
  }

  /** What a cell's glyph gives away. Covered fields and unrevealed bombs
      look alike, so the cover leaks neither the kind nor the count; a
      field's count shows once it is uncovered, and a bomb shows as `*`
      exactly when the flag is set, uncovered or not. */
  lemma ShowVisibility(c: Cell, expose: bool)
    ensures Show(c, expose) == Plain("#") <==> (if c.isBomb then !expose else !c.uncovered)
    ensures c.isBomb && expose ==> Show(c, expose).text == "*"
    ensures !c.isBomb && c.uncovered && c.value > 0 ==>
              Numerals.DigitsValue(Show(c, expose).text) == c.value
  {
    if !c.isBomb && c.uncovered && c.value > 0 {
      Numerals.NatTextValue(c.value);
    }
  }
}

=== FILE: flood.dfy ===
/** `Game._shoot`: the recursive flood fill started by every move. It
    reveals the target and, each time a cell agrees to be revealed, goes on
    into that cell's orthogonal neighbours. */
module Flood {
  import opened Wrappers
  import opened Cells
  import opened Board

  /** `r` grew from `b`, and every cell it uncovered has value 0 or 1. */
  ghost predicate FloodGrows(b: Board, r: Board) {
    && Grows(b, r)
    && forall y, x :: InRange(b, x, y) && !At(b, x, y).uncovered && At(r, x, y).uncovered ==>
         At(b, x, y).value <= 1
  }

  lemma FloodGrowsTransitive(a: Board, b: Board, c: Board)
    requires FloodGrows(a, b) && FloodGrows(b, c)
    ensures FloodGrows(a, c)
  {
    GrowsTransitive(a, b, c);
    forall y, x | InRange(a, x, y) && !At(a, x, y).uncovered && At(c, x, y).uncovered
      ensures At(a, x, y).value <= 1
    {
      assert CellGrows(At(a, x, y), At(b, x, y));
    }
  }

  /** `_shoot(x, y)` stops at once: no cell there, the cell is already
      uncovered, or its `reveal` refuses (value 2 or more). */
  predicate Stops(b: Board, x: int, y: int)
    requires WellFormed(b)
  {
    match GetCell(b, x, y)
    case None => true
    case Some(c) => c.uncovered || c.value > 1
  }

  /** `_shoot(x, y)`. The recursion is well founded because every call that
      goes on into the neighbours has just uncovered a covered cell, so the
      set of covered positions shrinks, and no call ever enlarges it. */
  function Shoot(b: Board, x: int, y: int): (r: Board)
    requires WellFormed(b)
    ensures FloodGrows(b, r)
    ensures Covered(r) <= Covered(b)
    ensures Stops(b, x, y) ==> r == b
    ensures GetCell(b, x, y).Some? && GetCell(b, x, y).value.value <= 1 ==>
              GetCell(r, x, y).Some? && GetCell(r, x, y).value.uncovered
    decreases Covered(b), 0, 0
  {
    match GetCell(b, x, y)
    case None => b
    case Some(c) =>
      if c.uncovered then b
      else
        var (c', spread) := Reveal(c);
        if !spread then b
        else
          var b1 := Put(b, c');
          RevealStep(b, c);
          var r := ShootAll(b1, Neighbours(c.x, c.y));
          FloodGrowsTransitive(b, b1, r);
          assert CellGrows(At(b1, c.x, c.y), At(r, c.x, c.y));
          r
  }

  /** Revealing the covered target: the board grows by that one cell and
      its position leaves the covered set. */
  lemma RevealStep(b: Board, c: Cell)
    requires WellFormed(b) && InRange(b, c.x, c.y) && At(b, c.x, c.y) == c
    requires !c.uncovered && c.value <= 1
    ensures FloodGrows(b, Put(b, c.(uncovered := true)))
    ensures Covered(Put(b, c.(uncovered := true))) < Covered(b)
    ensures At(Put(b, c.(uncovered := true)), c.x, c.y).uncovered
  {
    UncoverShrinksCovered(b, c.x, c.y);
    assert (c.x, c.y) in Covered(b);
  }

  /** The `for` loop over `get_neighbours()`, shooting each in turn on the
      board the previous one left. */
  function ShootAll(b: Board, ns: seq<(int, int)>): (r: Board)
    requires WellFormed(b)
    ensures FloodGrows(b, r)
    ensures Covered(r) <= Covered(b)
    decreases Covered(b), 1, |ns|
  {
    if |ns| == 0 then b
    else
      var b1 := Shoot(b, ns[0].0, ns[0].1);
      var r := ShootAll(b1, ns[1..]);
      FloodGrowsTransitive(b, b1, r);
      r
  }

  /** A position the flood has dealt with: if it is a cell with value 0
      or 1, that cell is uncovered. */
  ghost predicate Settled(r: Board, p: (int, int))
    requires WellFormed(r)
  {
    InRange(r, p.0, p.1) && At(r, p.0, p.1).value <= 1 ==> At(r, p.0, p.1).uncovered
  }

  /** Every cell `r` uncovered beyond `b` has its neighbours settled: the
      flood did not stop short anywhere it was allowed to go. */
  ghost predicate Closed(b: Board, r: Board) {
    && Grows(b, r)
    && forall y, x :: InRange(b, x, y) && !At(b, x, y).uncovered && At(r, x, y).uncovered ==>
         forall n :: n in Neighbours(x, y) ==> Settled(r, n)
  }

  lemma SettledGrows(b: Board, r: Board, p: (int, int))
    requires Grows(b, r) && Settled(b, p)
    ensures Settled(r, p)
  {
    if InRange(b, p.0, p.1) {
      assert CellGrows(At(b, p.0, p.1), At(r, p.0, p.1));
    }
  }

  lemma {:induction false} ShootClosed(b: Board, x: int, y: int)
    requires WellFormed(b)
    ensures Closed(b, Shoot(b, x, y))
    decreases Covered(b), 0, 0
  {
    match GetCell(b, x, y)
    case None =>
    case Some(c) =>
      if !c.uncovered && c.value <= 1 {
        var b1 := Put(b, c.(uncovered := true));
        RevealStep(b, c);
        var ns := Neighbours(c.x, c.y);
        var r := ShootAll(b1, ns);
        assert Shoot(b, x, y) == r;
        ShootAllClosed(b1, ns);
        RevealClosed(b, c, r);
      }
  }

  /** Closing the loop after a reveal: the revealed cell's own neighbours
      are settled, so the flood from `b` is closed as well. */
  lemma RevealClosed(b: Board, c: Cell, r: Board)
    requires WellFormed(b) && InRange(b, c.x, c.y) && At(b, c.x, c.y) == c
    requires !c.uncovered && c.value <= 1
    requires Grows(b, Put(b, c.(uncovered := true)))
    requires Closed(Put(b, c.(uncovered := true)), r)
    requires var ns := Neighbours(c.x, c.y); forall i :: 0 <= i < |ns| ==> Settled(r, ns[i])
    ensures Closed(b, r)
  {
    var b1 := Put(b, c.(uncovered := true));
    GrowsTransitive(b, b1, r);
    forall y', x' | InRange(b, x', y') && !At(b, x', y').uncovered && At(r, x', y').uncovered
      ensures forall n :: n in Neighbours(x', y') ==> Settled(r, n)
    {
      if (x', y') != (c.x, c.y) {
        assert At(b1, x', y') == At(b, x', y');
      }
    }
  }

  lemma {:induction false} ShootAllClosed(b: Board, ns: seq<(int, int)>)
    requires WellFormed(b)
    ensures Closed(b, ShootAll(b, ns))
    ensures forall i :: 0 <= i < |ns| ==> Settled(ShootAll(b, ns), ns[i])
    decreases Covered(b), 1, |ns|
  {
    if |ns| > 0 {
      var n := ns[0];
      var b1 := Shoot(b, n.0, n.1);
      var r := ShootAll(b1, ns[1..]);
      ShootClosed(b, n.0, n.1);
      ShootAllClosed(b1, ns[1..]);
      ShootSettles(b, n);
      SettledGrows(b1, r, n);
      forall i | 1 <= i < |ns|
        ensures Settled(r, ns[i])
      {
        assert ns[i] == ns[1..][i - 1];
      }
      ClosedChain(b, b1, r);
    }
  }

  /** A shot at a position leaves it settled. */
  lemma ShootSettles(b: Board, n: (int, int))
    requires WellFormed(b)
    ensures Settled(Shoot(b, n.0, n.1), n)
  {
    if InRange(b, n.0, n.1) {
      assert GetCell(b, n.0, n.1) == Some(At(b, n.0, n.1));
      assert CellGrows(At(b, n.0, n.1), At(Shoot(b, n.0, n.1), n.0, n.1));
    }
  }

  /** Two closed floods in a row make a closed flood. */
  lemma ClosedChain(b: Board, b1: Board, r: Board)
    requires Closed(b, b1) && Closed(b1, r)
    ensures Closed(b, r)
  {
    GrowsTransitive(b, b1, r);
    forall y', x' | InRange(b, x', y') && !At(b, x', y').uncovered && At(r, x', y').uncovered
      ensures forall m :: m in Neighbours(x', y') ==> Settled(r, m)
    {
      if At(b1, x', y').uncovered {
        forall m | m in Neighbours(x', y')
          ensures Settled(r, m)
        {
          SettledGrows(b1, r, m);
        }
      }
    }
  }

  /** A cell the flood may pass through: on the board, covered, value 0 or 1. */
  ghost predicate Floodable(b: Board, p: (int, int))
    requires WellFormed(b)
  {
    InRange(b, p.0, p.1) && !At(b, p.0, p.1).uncovered && At(b, p.0, p.1).value <= 1
  }

  /** A walk through floodable cells, each step to an orthogonal neighbour. */
  ghost predicate FloodPath(b: Board, path: seq<(int, int)>) {
    && WellFormed(b) && |path| > 0
    && (forall i :: 0 <= i < |path| ==> Floodable(b, path[i]))
    && (forall i :: 0 <= i < |path| - 1 ==> Orthogonal(path[i], path[i + 1]))
  }

  ghost predicate Reaches(b: Board, from: (int, int), to: (int, int)) {
    exists path :: FloodPath(b, path) && path[0] == from && path[|path| - 1] == to
  }

  /** A walk through cells still floodable later was floodable earlier. */
  lemma FloodPathEarlier(b: Board, r: Board, path: seq<(int, int)>)
    requires Grows(b, r) && FloodPath(r, path)
    ensures FloodPath(b, path)
  {
    forall i | 0 <= i < |path|
      ensures Floodable(b, path[i])
    {
      assert Floodable(r, path[i]);
      assert CellGrows(At(b, path[i].0, path[i].1), At(r, path[i].0, path[i].1));
    }
  }

  lemma FloodPathPrepend(b: Board, p: (int, int), path: seq<(int, int)>)
    requires FloodPath(b, path) && Floodable(b, p) && Orthogonal(p, path[0])
    ensures FloodPath(b, [p] + path)
  {
    var q := [p] + path;
    forall i | 0 <= i < |q|
      ensures Floodable(b, q[i])
    {
      if i > 0 {
        assert q[i] == path[i - 1];
      }
    }
    forall i | 0 <= i < |q| - 1
      ensures Orthogonal(q[i], q[i + 1])
    {
      if i > 0 {
        assert q[i] == path[i - 1] && q[i + 1] == path[i];
      }
    }
  }

  /** Reachability survives going back to an earlier board. */
  lemma ReachesEarlier(b: Board, r: Board, from: (int, int), to: (int, int))
    requires Grows(b, r) && Reaches(r, from, to)
    ensures Reaches(b, from, to)
  {
    var path :| FloodPath(r, path) && path[0] == from && path[|path| - 1] == to;
    FloodPathEarlier(b, r, path);
  }

  lemma ReachesItself(b: Board, t: (int, int))
    requires WellFormed(b) && Floodable(b, t)
    ensures Reaches(b, t, t)
  {
    assert FloodPath(b, [t]);
  }

  /** A floodable cell reaches whatever one of its neighbours reaches. */
  lemma ReachesThrough(b: Board, t: (int, int), n: (int, int), to: (int, int))
    requires WellFormed(b) && Floodable(b, t) && Orthogonal(t, n) && Reaches(b, n, to)
    ensures Reaches(b, t, to)
  {
    var path :| FloodPath(b, path) && path[0] == n && path[|path| - 1] == to;
    FloodPathPrepend(b, t, path);
    assert ([t] + path)[|[t] + path| - 1] == to;
  }

  /** What a neighbour reached on the later board, the cell itself
      reaches on the earlier one. */
  lemma ReachesFromNeighbour(b: Board, b1: Board, t: (int, int), to: (int, int))
    requires Grows(b, b1) && Floodable(b, t)
    requires exists i :: 0 <= i < |Neighbours(t.0, t.1)| && Reaches(b1, Neighbours(t.0, t.1)[i], to)
    ensures Reaches(b, t, to)
  {
    var ns := Neighbours(t.0, t.1);
    var i :| 0 <= i < |ns| && Reaches(b1, ns[i], to);
    ReachesEarlier(b, b1, ns[i], to);
    assert ns[i] in ns;
    ReachesThrough(b, t, ns[i], to);
  }

  lemma ReachesFromRest(b: Board, b1: Board, ns: seq<(int, int)>, to: (int, int))
    requires Grows(b, b1) && |ns| > 0
    requires exists j :: 0 <= j < |ns[1..]| && Reaches(b1, ns[1..][j], to)
    ensures exists i :: 0 <= i < |ns| && Reaches(b, ns[i], to)
  {
    var j :| 0 <= j < |ns[1..]| && Reaches(b1, ns[1..][j], to);
    assert ns[1..][j] == ns[j + 1];
    ReachesEarlier(b, b1, ns[j + 1], to);
  }

  lemma {:induction false} ShootSound(b: Board, x: int, y: int)
    requires WellFormed(b)
    ensures forall y', x' :: InRange(b, x', y') && !At(b, x', y').uncovered && At(Shoot(b, x, y), x', y').uncovered ==>
              GetCell(b, x, y).Some? && Reaches(b, (GetCell(b, x, y).value.x, GetCell(b, x, y).value.y), (x', y'))
    decreases Covered(b), 0, 0
  {
    match GetCell(b, x, y)
    case None =>
    case Some(c) =>
      if !c.uncovered && c.value <= 1 {
        var t := (c.x, c.y);
        var b1 := Put(b, c.(uncovered := true));
        RevealStep(b, c);
        var ns := Neighbours(c.x, c.y);
        var r := ShootAll(b1, ns);
        assert Shoot(b, x, y) == r;
        ShootAllSound(b1, ns);
        RevealSound(b, c, r);
      }
  }

  /** After a reveal, whatever the neighbours' floods uncovered is reached
      from the revealed cell, and so is the cell itself. */
  lemma RevealSound(b: Board, c: Cell, r: Board)
    requires WellFormed(b) && InRange(b, c.x, c.y) && At(b, c.x, c.y) == c
    requires !c.uncovered && c.value <= 1
    requires Grows(b, Put(b, c.(uncovered := true))) && Grows(Put(b, c.(uncovered := true)), r)
    requires var b1 := Put(b, c.(uncovered := true)); var ns := Neighbours(c.x, c.y);
             forall y', x' :: InRange(b1, x', y') && !At(b1, x', y').uncovered && At(r, x', y').uncovered ==>
               exists i :: 0 <= i < |ns| && Reaches(b1, ns[i], (x', y'))
    ensures forall y', x' :: InRange(b, x', y') && !At(b, x', y').uncovered && At(r, x', y').uncovered ==>
              Reaches(b, (c.x, c.y), (x', y'))
  {
    var t := (c.x, c.y);
    var b1 := Put(b, c.(uncovered := true));
    assert Floodable(b, t);
    forall y', x' | InRange(b, x', y') && !At(b, x', y').uncovered && At(r, x', y').uncovered
      ensures Reaches(b, t, (x', y'))
    {
      if (x', y') == t {
        ReachesItself(b, t);
      } else {
        assert At(b1, x', y') == At(b, x', y');
        ReachesFromNeighbour(b, b1, t, (x', y'));
      }
    }
  }

  lemma {:induction false} ShootAllSound(b: Board, ns: seq<(int, int)>)
    requires WellFormed(b)
    requires forall i :: 0 <= i < |ns| ==> ns[i].0 >= 0 && ns[i].1 >= 0
    ensures forall y', x' :: InRange(b, x', y') && !At(b, x', y').uncovered && At(ShootAll(b, ns), x', y').uncovered ==>
              exists i :: 0 <= i < |ns| && Reaches(b, ns[i], (x', y'))
    decreases Covered(b), 1, |ns|
  {
    if |ns| > 0 {
      var n := ns[0];
      var b1 := Shoot(b, n.0, n.1);
      var r := ShootAll(b1, ns[1..]);
      ShootSound(b, n.0, n.1);
      ShootAllSound(b1, ns[1..]);
      forall y', x' | InRange(b, x', y') && !At(b, x', y').uncovered && At(r, x', y').uncovered
        ensures exists i :: 0 <= i < |ns| && Reaches(b, ns[i], (x', y'))
      {
        if At(b1, x', y').uncovered {
          assert Reaches(b, ns[0], (x', y'));
        } else {
          ReachesFromRest(b, b1, ns, (x', y'));
        }
      }
    }
  }

  /** On a closed flood, a floodable walk that starts at an uncovered cell
      is uncovered all the way along. */
  lemma {:induction false} ClosedCoversPath(b: Board, r: Board, path: seq<(int, int)>, k: nat)
    requires Closed(b, r) && FloodPath(b, path) && k < |path|
    requires At(r, path[0].0, path[0].1).uncovered
    ensures At(r, path[k].0, path[k].1).uncovered
    decreases k
  {
    if k > 0 {
      ClosedCoversPath(b, r, path, k - 1);
      assert Floodable(b, path[k - 1]) && Floodable(b, path[k]) && Orthogonal(path[k - 1], path[k]);
      ClosedStep(b, r, path[k - 1], path[k]);
    }
  }

  /** One step of a floodable walk on a closed flood. */
  lemma ClosedStep(b: Board, r: Board, p: (int, int), q: (int, int))
    requires Closed(b, r) && Floodable(b, p) && Floodable(b, q) && Orthogonal(p, q)
    requires At(r, p.0, p.1).uncovered
    ensures At(r, q.0, q.1).uncovered
  {
    assert q in Neighbours(p.0, p.1);
    assert CellGrows(At(b, q.0, q.1), At(r, q.0, q.1));
  }

  /** `_shoot` on a covered target of value 0 or 1 uncovers exactly the
      cells some floodable walk from the target reaches, and leaves every
      other cell as it was. A bomb of value 0 or 1 is floodable too. */
  lemma ShootFloodsRegion(b: Board, x: int, y: int)
    requires WellFormed(b) && !Stops(b, x, y)
    ensures var t := GetCell(b, x, y).value;
            forall y', x' :: InRange(b, x', y') ==>
              (At(Shoot(b, x, y), x', y').uncovered <==>
                 At(b, x', y').uncovered || Reaches(b, (t.x, t.y), (x', y')))
  {
    var t := GetCell(b, x, y).value;
    var r := Shoot(b, x, y);
    ShootClosed(b, x, y);
    ShootSound(b, x, y);
    assert At(r, t.x, t.y).uncovered;
    forall y', x' | InRange(b, x', y')
      ensures At(r, x', y').uncovered <==> At(b, x', y').uncovered || Reaches(b, (t.x, t.y), (x', y'))
    {
      assert CellGrows(At(b, x', y'), At(r, x', y'));
      if Reaches(b, (t.x, t.y), (x', y')) {
        ClosedCoversReach(b, r, (t.x, t.y), (x', y'));
      }
    }
  }

  /** On a closed flood that uncovered `from`, everything `from` reaches
      is uncovered. */
  lemma ClosedCoversReach(b: Board, r: Board, from: (int, int), to: (int, int))
    requires Closed(b, r) && Reaches(b, from, to) && At(r, from.0, from.1).uncovered
    ensures At(r, to.0, to.1).uncovered
  {
    var path :| FloodPath(b, path) && path[0] == from && path[|path| - 1] == to;
    ClosedCoversPath(b, r, path, |path| - 1);
  }

  /** The termination measure, counted: `_shoot` never increases the
      number of covered cells, and lowers it whenever it does not stop at
      once. */
  lemma ShootCoveredCount(b: Board, x: int, y: int)
    requires WellFormed(b)
    ensures |Covered(Shoot(b, x, y))| <= |Covered(b)|
    ensures !Stops(b, x, y) ==> |Covered(Shoot(b, x, y))| < |Covered(b)|
  {
    var r := Shoot(b, x, y);
    SubsetCard(Covered(r), Covered(b));
    if !Stops(b, x, y) {
      var t := GetCell(b, x, y).value;
      assert At(r, t.x, t.y).uncovered && !At(b, t.x, t.y).uncovered;
      assert (t.x, t.y) !in Covered(r);
      assert (t.x, t.y) in Covered(b);
    }
  }

  lemma SubsetCard<T>(a: set<T>, b: set<T>)
    requires a <= b
    ensures |a| <= |b|
    ensures a < b ==> |a| < |b|
  {
    assert b == a + (b - a);
  }
}

=== FILE: game.dfy ===
/** The `Game` class: the move counter, the outcome, the win test, and the
    two steps of a turn — `move` reads the coordinates out of the typed
    text, `_make_move` plays them. */
module Saper {
  import opened Wrappers
  import opened Cells
  import opened Board
  import Flood
  import Generation
  import Numerals

  /** What a turn ends with: the message printed or the screen shown. */
  datatype Report =
    | FormatError     // not exactly one 'x': the format hint is printed
    | NumberError     // `int()` raised ValueError: the numbers-only hint
    | RangeError      // no cell there: the board size is printed
    | Lost            // a bomb was shot
    | Won             // the uncovered count reached its target
    | Played          // the board is shown again, the game goes on
    | DivisionByZero  // `_check_win` divided by `width*height - n_bombs` == 0;
                      // Python raises ZeroDivisionError and nothing catches it
  {
    /** The line was refused before any cell was touched. */
    predicate Rejected() {
      FormatError? || NumberError?
    }

    /** The turn decided the game. */
    predicate Decides() {
      Won? || Lost?
    }
  }

  /** `won` is `None` while the game is open, then `True` or `False`.
      `nBombs` is the number of bombs requested, not the number placed. */
  datatype Game = Game(board: Board, nBombs: nat, moves: nat, won: Option<bool>)

  /** `Game(width, height, n_bombs)` with the draws of `_generate_bombs`
      given: `n_bombs` is the number of draws. */
  function NewGame(width: nat, height: nat, draws: seq<(int, int)>): (g: Game)
    requires Generation.OnBoard(width, height, draws)
    ensures WellFormed(g.board) && g.board.width == width && g.board.height == height
    ensures g.nBombs == |draws| && g.moves == 0 && IsOpen(g)
    ensures g.board == Generation.Generate(width, height, draws)
  {
    Game(Generation.Generate(width, height, draws), |draws|, 0, None)
  }

  /** A new game starts on the generated matrix: every cell covered, a bomb
      exactly where a draw fell, and each value the number of bombs among
      the cell's on-board eight neighbours. */
  lemma NewGameBoard(width: nat, height: nat, draws: seq<(int, int)>)
    requires Generation.OnBoard(width, height, draws)
    ensures var b := NewGame(width, height, draws).board;
            forall y, x :: InRange(b, x, y) ==>
              && !At(b, x, y).uncovered
              && (At(b, x, y).isBomb <==> (x, y) in draws)
              && At(b, x, y).value == |Generation.BombsAround(b, x, y)|
  {
    Generation.GeneratePlacesDraws(width, height, draws);
    Generation.GenerateCounts(width, height, draws);
  }

  /** `is_open`. */
  predicate IsOpen(g: Game): (r: bool)
    ensures r <==> g.won != Some(true) && g.won != Some(false)
  {
    match g.won
    case None => true
    case Some(decided) => assert g.won == Some(decided); false
  }

  function RowUncovered(row: seq<Cell>): (n: nat)
    ensures n <= |row|
  {
    if |row| == 0 then 0 else (if row[0].uncovered then 1 else 0) + RowUncovered(row[1..])
  }

  /** The number of uncovered cells over all rows, fields and bombs
      alike, as `_check_win` counts them. */
  function Uncovered(rows: seq<seq<Cell>>): nat {
    if |rows| == 0 then 0 else RowUncovered(rows[0]) + Uncovered(rows[1..])
  }

  /** `_check_win`: whether the uncovered count divided by the number of
      cells that are not bombs is exactly 1. `None` where that divisor is
      zero. */
  function CheckWin(b: Board, nBombs: nat): (r: Option<bool>)
    ensures r.None? <==> b.width * b.height == nBombs
    ensures r == Some(true) ==> nBombs < b.width * b.height
  {
    var total := b.width * b.height;
    if total == nBombs then None else Some(Uncovered(b.rows) == total - nBombs)
  }

  /** `_make_move(x, y)`. */
  function MakeMove(g: Game, x: int, y: int): (r: (Game, Report))
    requires WellFormed(g.board)
    ensures r.0.moves == g.moves + 1 && r.0.nBombs == g.nBombs
    ensures !r.1.Rejected()
    ensures Grows(g.board, r.0.board)
    ensures r.0.won == (if r.1.Won? then Some(true) else if r.1.Lost? then Some(false) else g.won)
  {
    var g1 := g.(moves := g.moves + 1);
    var b1 := Flood.Shoot(g.board, x, y);
    match GetCell(b1, x, y)
    case None => (g1, RangeError)
    case Some(c) =>
      var (c', isBomb) := Cells.Shoot(c);
      var b2 := Put(b1, c');
      PutGrows(b1, c');
      GrowsTransitive(g.board, b1, b2);
      if isBomb then
        PutSame(b1, c.x, c.y);
        (g1.(board := b2, won := Some(false)), Lost)
      else
        match CheckWin(b2, g.nBombs)
        case None => (g1.(board := b2), DivisionByZero)
        case Some(true) => (g1.(board := b2, won := Some(true)), Won)
        case Some(false) => (g1.(board := b2), Played)
  }

  /** The three ways a turn at `(x, y)` can go, decided by the cell there
      on the board as it was before the flood fill: no cell is a range
      error that still counts as a move; a bomb loses, leaving the board as
      the flood fill made it; a field ends up uncovered, and the game is
      won exactly when the win test says so. */
  lemma MakeMoveOutcome(g: Game, x: int, y: int)
    requires WellFormed(g.board)
    ensures var r := MakeMove(g, x, y);
            GetCell(g.board, x, y).None? ==> r == (g.(moves := g.moves + 1), RangeError)
    ensures var r := MakeMove(g, x, y);
            GetCell(g.board, x, y).Some? && GetCell(g.board, x, y).value.isBomb ==>
              r.1 == Lost && r.0.won == Some(false) && r.0.board == Flood.Shoot(g.board, x, y)
    ensures var r := MakeMove(g, x, y);
            GetCell(g.board, x, y).Some? && !GetCell(g.board, x, y).value.isBomb ==>
              && GetCell(r.0.board, x, y).Some? && GetCell(r.0.board, x, y).value.uncovered
              && (var b1 := Flood.Shoot(g.board, x, y);
                  r.0.board == Put(b1, GetCell(b1, x, y).value.(uncovered := true)))
              && (r.1.Won? || r.1.Played? || r.1.DivisionByZero?)
              && (r.1 == DivisionByZero <==> g.board.width * g.board.height == g.nBombs)
              && (r.1 == Won <==> CheckWin(r.0.board, g.nBombs) == Some(true))
  {
    var b1 := Flood.Shoot(g.board, x, y);
    match GetCell(b1, x, y)
    case None =>
    case Some(c) =>
      var c' := Cells.Shoot(c).0;
      if c.isBomb {
        PutSame(b1, c.x, c.y);
      } else {
        assert GetCell(Put(b1, c'), x, y) == Some(c');
      }
  }

  /** On an open game, a turn closes it exactly when it is won or lost:
      `win` and `lose` set `won`, and `is_open` reads it. */
  lemma MakeMoveCloses(g: Game, x: int, y: int)
    requires WellFormed(g.board) && IsOpen(g)
    ensures !IsOpen(MakeMove(g, x, y).0) <==> MakeMove(g, x, y).1.Decides()
    ensures MakeMove(g, x, y).1.Lost? ==> MakeMove(g, x, y).0.won == Some(false)
  {
  }

  /** How `move` reads a line. */
  datatype Parsed =
    | BadFormat              // not exactly one 'x' once lower-cased
    | BadNumber              // a half `int()` rejects
    | Target(x: int, y: int) // the 0-based column and row

  /** The parse in `move`: lower-case the line, then read it. */
  function ParseMove(text: string): (p: Parsed)
    ensures p.BadFormat? <==> Numerals.Count(Numerals.Lower(text), 'x') != 1
  {
    ParseLowered(Numerals.Lower(text))
  }

  /** Reading a lower-cased line: insist on exactly one `'x'`, read both
      halves with `int()` and turn the 1-based numbers into 0-based
      coordinates. */
  function ParseLowered(t: string): (p: Parsed)
    ensures p.BadFormat? <==> Numerals.Count(t, 'x') != 1
  {
    if Numerals.Count(t, 'x') != 1 then BadFormat
    else
      var i := Numerals.IndexOf(t, 'x');
      match (Numerals.ParseInt(t[..i]), Numerals.ParseInt(t[i + 1..]))
      case (Some(col), Some(row)) => Target(col - 1, row - 1)
      case _ => BadNumber
  }

  /** `move`, once `input()` has returned `text`. A rejected line changes
      nothing: not the board, not the move counter. */
  function Move(g: Game, text: string): (r: (Game, Report))
    requires WellFormed(g.board)
    ensures r.1 == FormatError <==> Numerals.Count(Numerals.Lower(text), 'x') != 1
    ensures r.1.Rejected() ==> r.0 == g
    ensures !r.1.Rejected() ==> r.0.moves == g.moves + 1
    ensures Grows(g.board, r.0.board)
  {
    GrowsReflexive(g.board);
    match ParseMove(text)
    case BadFormat => (g, FormatError)
    case BadNumber => (g, NumberError)
    case Target(x, y) => MakeMove(g, x, y)
  }

  /** The text `str(x + 1)` 'x' `str(y + 1)`, with either case of the
      separator and whitespace around each number, reads as `(x, y)`, and
      the turn is the move played there. */
  lemma MoveReadsCoordinates(g: Game, x: int, y: int, sep: char, pads: seq<string>)
    requires WellFormed(g.board)
    requires sep == 'x' || sep == 'X'
    requires |pads| == 4 && forall i :: 0 <= i < 4 ==> Numerals.AllSpaces(pads[i])
    ensures var text := pads[0] + Numerals.IntText(x + 1) + pads[1] + [sep]
                        + pads[2] + Numerals.IntText(y + 1) + pads[3];
            ParseMove(text) == Target(x, y) && Move(g, text) == MakeMove(g, x, y)
  {
    var a := pads[0] + Numerals.IntText(x + 1) + pads[1];
    var b := pads[2] + Numerals.IntText(y + 1) + pads[3];
    Numerals.ParseIntText(x + 1, pads[0], pads[1]);
    Numerals.ParseIntText(y + 1, pads[2], pads[3]);
    Numerals.PaddedNumberPlain(pads[0], x + 1, pads[1]);
    Numerals.PaddedNumberPlain(pads[2], y + 1, pads[3]);
    assert pads[0] + Numerals.IntText(x + 1) + pads[1] + [sep]
           + pads[2] + Numerals.IntText(y + 1) + pads[3] == a + [sep] + b;
    ParseSplits(a, sep, b);
    Numerals.LowerPlain(a);
    Numerals.LowerPlain(b);
  }

  /** A line with exactly one `x` or `X`, at the separator, is read as its
      two halves, each lower-cased and given to `int()`. */
  lemma ParseSplits(a: string, sep: char, b: string)
    requires sep == 'x' || sep == 'X'
    requires 'x' !in a && 'X' !in a && 'x' !in b && 'X' !in b
    ensures ParseMove(a + [sep] + b) == HalvesRead(Numerals.Lower(a), Numerals.Lower(b))
  {
    assert Numerals.LowerChar(sep) == 'x';
    Numerals.LowerAround(a, sep, b);
    Numerals.LowerNoX(a);
    Numerals.LowerNoX(b);
    LoweredSplits(Numerals.Lower(a), Numerals.Lower(b));
  }

  /** What `move` makes of the halves around the one `'x'`. */
  function HalvesRead(a: string, b: string): Parsed {
    match (Numerals.ParseInt(a), Numerals.ParseInt(b))
    case (Some(col), Some(row)) => Target(col - 1, row - 1)
    case _ => BadNumber
  }

  lemma LoweredSplits(a: string, b: string)
    requires 'x' !in a && 'x' !in b
    ensures ParseLowered(a + ['x'] + b) == HalvesRead(a, b)
  {
    var t := a + ['x'] + b;
    Numerals.SplitAround(a, 'x', b);
    assert Numerals.Count(t, 'x') == 1 && Numerals.IndexOf(t, 'x') == |a|;
    assert t[..|a|] == a && t[|a| + 1..] == b;
  }

  /** A half that is empty or blank, as in `"x5"` or `"3X "`, is rejected
      without counting a move. */
  lemma MoveNeedsBothNumbers(g: Game, a: string, sep: char, b: string)
    requires WellFormed(g.board)
    requires sep == 'x' || sep == 'X'
    requires 'x' !in a && 'X' !in a && 'x' !in b && 'X' !in b
    requires Numerals.AllSpaces(a) || Numerals.AllSpaces(b)
    ensures ParseMove(a + [sep] + b) == BadNumber && Move(g, a + [sep] + b) == (g, NumberError)
  {
    ParseSplits(a, sep, b);
    if Numerals.AllSpaces(a) {
      Numerals.SpacesPlain(a);
      Numerals.BlankIsNotANumber(a);
    } else {
      Numerals.SpacesPlain(b);
      Numerals.BlankIsNotANumber(b);
    }
  }

  lemma {:induction false} RowUncoveredGrows(a: seq<Cell>, b: seq<Cell>)
    requires |a| == |b|
    requires forall i :: 0 <= i < |a| ==> (a[i].uncovered ==> b[i].uncovered)
    ensures RowUncovered(a) <= RowUncovered(b)
  {
    if |a| > 0 {
      RowUncoveredGrows(a[1..], b[1..]);
    }
  }

  /** The win test in terms of the board: the game is won exactly when
      the cells still covered are as many as the bombs requested. */
  lemma CheckWinCovered(b: Board, nBombs: nat)
    requires WellFormed(b)
    ensures CheckWin(b, nBombs) == Some(true) <==>
              b.width * b.height != nBombs && |Covered(b)| == nBombs
  {
    UncoveredCount(b);
  }

  /** Every cell is either counted as uncovered or listed as covered. */
  lemma UncoveredCount(b: Board)
    requires WellFormed(b)
    ensures Uncovered(b.rows) + |Covered(b)| == b.width * b.height
  {
    CoveredFromCount(b, 0);
    assert b.rows[0..] == b.rows;
    assert CoveredFrom(b, 0) == Covered(b);
  }

  /** The covered positions in rows `k` and below. */
  ghost function CoveredFrom(b: Board, k: nat): set<(int, int)>
    requires WellFormed(b)
  {
    set x, y | k <= y < b.height && 0 <= x < b.width && !b.rows[y][x].uncovered :: (x, y)
  }

  /** The covered positions in row `y` from column `i` on. */
  ghost function RowCoveredFrom(b: Board, y: nat, i: nat): set<(int, int)>
    requires WellFormed(b) && y < b.height
  {
    set x | i <= x < b.width && !b.rows[y][x].uncovered :: (x, y)
  }

  lemma {:induction false} CoveredFromCount(b: Board, k: nat)
    requires WellFormed(b) && k <= b.height
    ensures Uncovered(b.rows[k..]) + |CoveredFrom(b, k)| == (b.height - k) * b.width
    decreases b.height - k
  {
    if k == b.height {
      assert b.rows[k..] == [];
      assert CoveredFrom(b, k) == {};
    } else {
      CoveredFromCount(b, k + 1);
      RowCoveredCount(b, k, 0);
      assert b.rows[k..][1..] == b.rows[k + 1..];
      assert b.rows[k][0..] == b.rows[k];
      CoveredFromSplit(b, k);
      assert (b.height - k) * b.width == b.width + (b.height - (k + 1)) * b.width;
    }
  }

  /** Row `k` and the rows below it hold disjoint covered positions. */
  lemma CoveredFromSplit(b: Board, k: nat)
    requires WellFormed(b) && k < b.height
    ensures |CoveredFrom(b, k)| == |RowCoveredFrom(b, k, 0)| + |CoveredFrom(b, k + 1)|
  {
    var row, rest := RowCoveredFrom(b, k, 0), CoveredFrom(b, k + 1);
    assert CoveredFrom(b, k) == row + rest;
    assert row * rest == {} by {
      forall p | p in row
        ensures p !in rest
      {
      }
    }
  }

  lemma {:induction false} RowCoveredCount(b: Board, y: nat, i: nat)
    requires WellFormed(b) && y < b.height && i <= b.width
    ensures RowUncovered(b.rows[y][i..]) + |RowCoveredFrom(b, y, i)| == b.width - i
    decreases b.width - i
  {
    var row := b.rows[y];
    if i == b.width {
      assert row[i..] == [];
      assert RowCoveredFrom(b, y, i) == {};
    } else {
      RowCoveredCount(b, y, i + 1);
      assert row[i..][1..] == row[i + 1..];
      var here := if row[i].uncovered then {} else {(i, y)};
      assert RowCoveredFrom(b, y, i) == here + RowCoveredFrom(b, y, i + 1);
      assert (i, y) !in RowCoveredFrom(b, y, i + 1);
    }
  }

  /** Progress never goes back: a board that only grew has at least as
      many uncovered cells. */
  lemma UncoveredGrows(b: Board, r: Board)
    requires Grows(b, r)
    ensures Uncovered(b.rows) <= Uncovered(r.rows)
  {
    UncoveredRowsGrow(b, r, 0);
  }

  lemma {:induction false} UncoveredRowsGrow(b: Board, r: Board, k: nat)
    requires Grows(b, r) && k <= b.height
    ensures Uncovered(b.rows[k..]) <= Uncovered(r.rows[k..])
    decreases b.height - k
  {
    if k < b.height {
      UncoveredRowsGrow(b, r, k + 1);
      forall i | 0 <= i < b.width
        ensures b.rows[k][i].uncovered ==> r.rows[k][i].uncovered
      {
        assert CellGrows(At(b, i, k), At(r, i, k));
      }
      RowUncoveredGrows(b.rows[k], r.rows[k]);
      assert b.rows[k..][1..] == b.rows[k + 1..];
      assert r.rows[k..][1..] == r.rows[k + 1..];
    } else {
      assert b.rows[k..] == [] && r.rows[k..] == [];
    }
  }
}

=== FILE: generation.dfy ===
/** `Game._generate_matrix`: a grid of fields, bombs written over it at the
    drawn coordinates, then every cell's `value` set to the number of bombs
    around it. The random draws of `_generate_bombs` are a parameter. */
module Generation {
  import opened Wrappers
  import opened Cells
  import opened Board

  /** Every drawn `(x, y)` lies on a `width` by `height` board, as
      `randint(0, width-1)` and `randint(0, height-1)` guarantee. */
  predicate OnBoard(width: nat, height: nat, draws: seq<(int, int)>) {
    forall i :: 0 <= i < |draws| ==> 0 <= draws[i].0 < width && 0 <= draws[i].1 < height
  }

  /** The starting grid: `height` rows of `width` covered fields, each
      built with its own column and row. */
  function Blank(width: nat, height: nat): (b: Board)
    ensures WellFormed(b) && b.width == width && b.height == height
    ensures forall y, x :: InRange(b, x, y) ==> At(b, x, y) == NewCell(x, y, false)
  {
    Board(width, height, seq(height, y => seq(width, x => NewCell(x, y, false))))
  }

  /** Each drawn bomb overwrites the cell at its column and row, in draw
      order. A repeated draw writes an identical bomb over the first one. */
  function PlaceBombs(b: Board, draws: seq<(int, int)>): (r: Board)
    requires WellFormed(b) && OnBoard(b.width, b.height, draws)
    ensures WellFormed(r) && r.width == b.width && r.height == b.height
    ensures forall y, x :: InRange(b, x, y) ==>
              At(r, x, y) == if (x, y) in draws then NewCell(x, y, true) else At(b, x, y)
    decreases |draws|
  {
    if |draws| == 0 then b
    else
      var r := PlaceBombs(Put(b, NewCell(draws[0].0, draws[0].1, true)), draws[1..]);
      assert forall p :: p in draws <==> p == draws[0] || p in draws[1..];
      r
  }

  /** `_get_neighbours(corners=True)` around the origin, in the order its
      two loops yield them: every offset in {-1, 0, 1}² but (0, 0). */
  const Offsets: seq<(int, int)> :=
    [(-1, -1), (-1, 0), (-1, 1), (0, -1), (0, 1), (1, -1), (1, 0), (1, 1)]

  /** One step of the counting loop: the probed row and column must both
      be non-negative and the cell there a bomb; an index past the end
      raises `IndexError`, which counts as a miss. */
  function Probe(b: Board, row: int, col: int): bool {
    && row >= 0 && col >= 0
    && match PyIndex(b.rows, row)
       case None => false
       case Some(cells) =>
         match PyIndex(cells, col)
         case None => false
         case Some(c) => c.isBomb
  }

  /** The counting loop for the cell at row `h`, column `w`. */
  function CountProbes(b: Board, h: int, w: int, offsets: seq<(int, int)>): (n: nat)
    ensures n <= |offsets|
    ensures n == 0 <==> forall i :: 0 <= i < |offsets| ==> !Probe(b, h + offsets[i].0, w + offsets[i].1)
  {
    if |offsets| == 0 then 0
    else (if Probe(b, h + offsets[0].0, w + offsets[0].1) then 1 else 0)
         + CountProbes(b, h, w, offsets[1..])
  }

  /** `field.value = value` for every cell, bombs included. The counts are
      read from the finished grid, and writing a value does not change
      which cells are bombs. */
  function SetValues(b: Board): (r: Board)
    requires WellFormed(b)
    ensures WellFormed(r) && r.width == b.width && r.height == b.height
    ensures forall y, x :: InRange(b, x, y) ==>
              At(r, x, y) == At(b, x, y).(value := CountProbes(b, y, x, Offsets))
    ensures forall y, x :: InRange(b, x, y) ==>
              At(r, x, y) == At(b, x, y).(value := |BombsAround(b, x, y)|)
  {
    assert forall y, x :: InRange(b, x, y) ==> CountProbes(b, y, x, Offsets) == |BombsAround(b, x, y)| by {
      forall y, x | InRange(b, x, y)
        ensures CountProbes(b, y, x, Offsets) == |BombsAround(b, x, y)|
      {
        CountProbesCard(b, y, x, Offsets);
        ProbeHitsAround(b, y, x);
      }
    }
    b.(rows := seq(b.height, y requires 0 <= y < b.height =>
                   seq(b.width, x requires 0 <= x < b.width =>
                       b.rows[y][x].(value := CountProbes(b, y, x, Offsets)))))
  }

  /** `_generate_matrix`, with the bomb coordinates given. */
  function Generate(width: nat, height: nat, draws: seq<(int, int)>): (r: Board)
    requires OnBoard(width, height, draws)
    ensures WellFormed(r) && r.width == width && r.height == height
    ensures forall y, x :: InRange(r, x, y) ==>
              !At(r, x, y).uncovered && At(r, x, y).x == x && At(r, x, y).y == y
  {
    SetValues(PlaceBombs(Blank(width, height), draws))
  }

  /** The positions of the bombs on the board. */
  ghost function Bombs(b: Board): set<(int, int)>
    requires WellFormed(b)
  {
    set x, y | 0 <= y < b.height && 0 <= x < b.width && b.rows[y][x].isBomb :: (x, y)
  }

  /** The bombs among the up to eight cells around `(x, y)` that lie on
      the board; nothing wraps round an edge. */
  ghost function BombsAround(b: Board, x: int, y: int): set<(int, int)>
    requires WellFormed(b)
  {
    set x', y' | x - 1 <= x' <= x + 1 && y - 1 <= y' <= y + 1 && (x', y') != (x, y)
                 && 0 <= y' < b.height && 0 <= x' < b.width && b.rows[y'][x'].isBomb :: (x', y')
  }

  /** A cell is a bomb exactly when its coordinates were drawn, and the
      board holds one bomb per distinct draw: repeated draws collapse, so
      there are never more bombs than draws. */
  lemma GeneratePlacesDraws(width: nat, height: nat, draws: seq<(int, int)>)
    requires OnBoard(width, height, draws)
    ensures var r := Generate(width, height, draws);
            forall y, x :: InRange(r, x, y) ==> (At(r, x, y).isBomb <==> (x, y) in draws)
    ensures Bombs(Generate(width, height, draws)) == set p | p in draws
    ensures |Bombs(Generate(width, height, draws))| <= |draws|
  {
    var placed := PlaceBombs(Blank(width, height), draws);
    var r := Generate(width, height, draws);
    assert forall y, x :: InRange(r, x, y) ==> (At(r, x, y).isBomb <==> (x, y) in draws);
    forall p | p in draws
      ensures p in Bombs(r)
    {
      assert InRange(r, p.0, p.1) && At(r, p.0, p.1).isBomb;
    }
    DistinctCard(draws);
  }

  /** A sequence has at least as many entries as distinct values. */
  lemma {:induction false} DistinctCard<T>(s: seq<T>)
    ensures |set p | p in s| <= |s|
  {
    if |s| > 0 {
      DistinctCard(s[1..]);
      assert (set p | p in s) == {s[0]} + (set p | p in s[1..]);
    }
  }

  /** The cells the counting loop finds to be bombs, as `(x, y)` positions. */
  ghost function ProbeHits(b: Board, h: int, w: int, offsets: seq<(int, int)>): set<(int, int)> {
    if |offsets| == 0 then {}
    else
      var o := offsets[0];
      (if Probe(b, h + o.0, w + o.1) then {(w + o.1, h + o.0)} else {})
      + ProbeHits(b, h, w, offsets[1..])
  }

  /** A position is hit exactly when its offset from the cell is one the
      loop tries and the probe there finds a bomb. */
  lemma {:induction false} ProbeHitsMember(b: Board, h: int, w: int, offsets: seq<(int, int)>, p: (int, int))
    ensures p in ProbeHits(b, h, w, offsets) <==> (p.1 - h, p.0 - w) in offsets && Probe(b, p.1, p.0)
  {
    if |offsets| > 0 {
      ProbeHitsMember(b, h, w, offsets[1..], p);
      assert forall o :: o in offsets <==> o == offsets[0] || o in offsets[1..];
    }
  }

  /** With no offset repeated, the loop counts each hit once. */
  lemma {:induction false} CountProbesCard(b: Board, h: int, w: int, offsets: seq<(int, int)>)
    requires forall i :: 0 <= i < |offsets| ==> offsets[i] !in offsets[i + 1..]
    ensures CountProbes(b, h, w, offsets) == |ProbeHits(b, h, w, offsets)|
  {
    if |offsets| > 0 {
      var o, rest := offsets[0], offsets[1..];
      forall i | 0 <= i < |rest|
        ensures rest[i] !in rest[i + 1..]
      {
        assert rest[i] == offsets[i + 1] && rest[i + 1..] == offsets[i + 2..];
      }
      CountProbesCard(b, h, w, rest);
      assert o !in rest;
      ProbeHitsMember(b, h, w, rest, (w + o.1, h + o.0));
    }
  }

  /** A probe hits exactly the bombs on the board. */
  lemma ProbeOnBoard(b: Board, row: int, col: int)
    requires WellFormed(b)
    ensures Probe(b, row, col) <==>
              0 <= row < b.height && 0 <= col < b.width && b.rows[row][col].isBomb
  {
    if 0 <= row < b.height {
      assert PyIndex(b.rows, row) == Some(b.rows[row]);
    }
  }

  /** The offsets are the eight-neighbourhood of the origin. */
  lemma OffsetsAround(o: (int, int))
    ensures o in Offsets <==> -1 <= o.0 <= 1 && -1 <= o.1 <= 1 && o != (0, 0)
  {
  }

  /** The offsets cover exactly the eight-neighbourhood; a probe that
      would need a negative or too large index misses. */
  lemma ProbeHitsAround(b: Board, h: int, w: int)
    requires WellFormed(b) && InRange(b, w, h)
    ensures ProbeHits(b, h, w, Offsets) == BombsAround(b, w, h)
  {
    forall p
      ensures p in ProbeHits(b, h, w, Offsets) <==> p in BombsAround(b, w, h)
    {
      ProbeHitsMember(b, h, w, Offsets, p);
      OffsetsAround((p.1 - h, p.0 - w));
      ProbeOnBoard(b, p.1, p.0);
    }
  }

  /** Every cell's value, bombs included, is the number of bombs among its
      on-board neighbours, diagonals included. */
  lemma GenerateCounts(width: nat, height: nat, draws: seq<(int, int)>)
    requires OnBoard(width, height, draws)
    ensures var r := Generate(width, height, draws);
            forall y, x :: InRange(r, x, y) ==> At(r, x, y).value == |BombsAround(r, x, y)|
  {
    var placed := PlaceBombs(Blank(width, height), draws);
    var r := Generate(width, height, draws);
    forall y, x | InRange(r, x, y)
      ensures At(r, x, y).value == |BombsAround(r, x, y)|
    {
      SetValuesKeepsBombs(placed, x, y);
    }
  }

  /** Writing the counts leaves the bombs where they were. */
  lemma SetValuesKeepsBombs(b: Board, x: int, y: int)
    requires WellFormed(b) && InRange(b, x, y)
    ensures BombsAround(SetValues(b), x, y) == BombsAround(b, x, y)
  {
    var r := SetValues(b);
    forall p | p in BombsAround(r, x, y)
      ensures p in BombsAround(b, x, y)
    {
      assert At(r, p.0, p.1).isBomb == At(b, p.0, p.1).isBomb;
    }
  }
}

=== FILE: numerals.dfy ===
/** The text handling the move prompt relies on: `str.lower`, `str.count`,
    splitting at the single `'x'`, and `int()` on each half. `int()` is
    modelled as an optionally signed run of ASCII decimal digits surrounded
    by whitespace; `str()` of an integer is its partner. */
module Numerals {
  import opened Wrappers

  predicate IsDigit(ch: char) {
    '0' <= ch <= '9'
  }

  /** The whitespace `int()` strips from an ASCII string: space and tab
      through carriage return. An ASCII string reaches the C parser as it
      is, and that parser does not count the separators 0x1C-0x1F as space. */
  predicate IsSpace(ch: char) {
    ch == ' ' || '\t' <= ch <= '\r'
  }

  predicate AllDigits(s: string) {
    forall i :: 0 <= i < |s| ==> IsDigit(s[i])
  }

  predicate AllSpaces(s: string) {
    forall i :: 0 <= i < |s| ==> IsSpace(s[i])
  }

  /** `ch.lower()` for ASCII letters; every other character is left alone. */
  function LowerChar(ch: char): (r: char)
    ensures 'A' <= ch <= 'Z' ==> 'a' <= r <= 'z' && r as int - ch as int == 32
    ensures !('A' <= ch <= 'Z') ==> r == ch
  {
    if 'A' <= ch <= 'Z' then (ch as int + 32) as char else ch
  }

  function Lower(s: string): (r: string)
    ensures |r| == |s|
    ensures forall i :: 0 <= i < |s| ==> r[i] == LowerChar(s[i])
  {
    if |s| == 0 then [] else [LowerChar(s[0])] + Lower(s[1..])
  }

  /** `s.count(ch)` for a one-character needle. */
  function Count(s: string, ch: char): (n: nat)
    ensures n == multiset(s)[ch]
    ensures n == 0 <==> ch !in s
    ensures n <= |s|
  {
    if |s| == 0 then 0
    else
      assert s == [s[0]] + s[1..];
      (if s[0] == ch then 1 else 0) + Count(s[1..], ch)
  }

  /** Position of the first `ch` in `s`. */
  function IndexOf(s: string, ch: char): (i: nat)
    requires ch in s
    ensures i < |s| && s[i] == ch && ch !in s[..i]
  {
    if s[0] == ch then 0 else 1 + IndexOf(s[1..], ch)
  }

  function StripLeft(s: string): string {
    if |s| > 0 && IsSpace(s[0]) then StripLeft(s[1..]) else s
  }

  function StripRight(s: string): string {
    if |s| > 0 && IsSpace(s[|s| - 1]) then StripRight(s[..|s| - 1]) else s
  }

  function Strip(s: string): string {
    StripRight(StripLeft(s))
  }

  function DigitValue(ch: char): nat
    requires IsDigit(ch)
  {
    ch as int - '0' as int
  }

  /** The value of a run of decimal digits, most significant first. */
  function DigitsValue(s: string): nat
    requires AllDigits(s)
  {
    if |s| == 0 then 0 else DigitsValue(s[..|s| - 1]) * 10 + DigitValue(s[|s| - 1])
  }

  /** The digits of a base-10 literal as `int()` reads them: digits, with
      single underscores allowed between two digits, as in `1_000`. */
  predicate Numeral(s: string) {
    && |s| > 0 && IsDigit(s[0])
    && (|s| == 1 || if s[1] == '_' then |s| > 2 && Numeral(s[2..]) else Numeral(s[1..]))
  }

  /** The digits of a numeral with its underscores dropped. */
  function NumeralDigits(s: string): (r: string)
    requires Numeral(s)
    ensures |r| > 0 && AllDigits(r)
  {
    if |s| == 1 then s
    else if s[1] == '_' then [s[0]] + NumeralDigits(s[2..])
    else [s[0]] + NumeralDigits(s[1..])
  }

  /** The value of a numeral. */
  function NumeralValue(s: string): nat
    requires Numeral(s)
  {
    DigitsValue(NumeralDigits(s))
  }

  /** A plain run of digits is a numeral worth its digits. */
  lemma {:induction false} PlainNumeral(s: string)
    requires |s| > 0 && AllDigits(s)
    ensures Numeral(s) && NumeralDigits(s) == s
  {
    if |s| > 1 {
      assert IsDigit(s[1]);
      PlainNumeral(s[1..]);
      assert [s[0]] + s[1..] == s;
    }
  }

  /** `int(s)` for a `str` argument: `None` where Python raises `ValueError`.
      A number needs something besides whitespace, starting with a digit or
      a sign, and only a leading minus makes it negative. */
  function ParseInt(s: string): (r: Option<int>)
    ensures r.Some? ==> |Strip(s)| > 0 && (IsDigit(Strip(s)[0]) || Strip(s)[0] == '+' || Strip(s)[0] == '-')
    ensures r.Some? && r.value < 0 ==> Strip(s)[0] == '-'
  {
    ParseStripped(Strip(s))
  }

  /** `int()` once the surrounding whitespace is gone: an optional sign,
      then a numeral. */
  function ParseStripped(t: string): Option<int> {
    if |t| > 0 && (t[0] == '+' || t[0] == '-') then
      var ds := t[1..];
      if Numeral(ds) then
        var v: int := NumeralValue(ds);
        Some(if t[0] == '-' then -v else v)
      else None
    else if Numeral(t) then Some(NumeralValue(t))
    else None
  }

  function DigitChar(d: nat): (ch: char)
    requires d < 10
    ensures IsDigit(ch) && DigitValue(ch) == d
  {
    ('0' as int + d) as char
  }

  /** `str(n)` for a natural number. */
  function NatText(n: nat): (s: string)
    ensures |s| > 0 && AllDigits(s)
    decreases n
  {
    if n < 10 then [DigitChar(n)] else NatText(n / 10) + [DigitChar(n % 10)]
  }

  /** `str(n)` for any integer. */
  function IntText(n: int): (s: string)
    ensures |s| > 0 && IsDigit(s[|s| - 1])
    ensures forall i :: 0 <= i < |s| ==> IsDigit(s[i]) || (i == 0 && s[i] == '-')
  {
    if n < 0 then "-" + NatText(-n) else NatText(n)
  }

  lemma {:induction false} NatTextValue(n: nat)
    ensures DigitsValue(NatText(n)) == n
    decreases n
  {
    if n >= 10 {
      var s := NatText(n);
      assert s[..|s| - 1] == NatText(n / 10);
      NatTextValue(n / 10);
    }
  }

  lemma {:induction false} StripLeftSpaces(pad: string, t: string)
    requires AllSpaces(pad)
    ensures StripLeft(pad + t) == StripLeft(t)
    decreases |pad|
  {
    if |pad| > 0 {
      assert (pad + t)[0] == pad[0] && IsSpace(pad[0]);
      assert (pad + t)[1..] == pad[1..] + t;
      StripLeftSpaces(pad[1..], t);
      assert StripLeft(pad + t) == StripLeft(pad[1..] + t);
    } else {
      assert pad + t == t;
    }
  }

  lemma {:induction false} StripRightSpaces(t: string, pad: string)
    requires AllSpaces(pad)
    ensures StripRight(t + pad) == StripRight(t)
    decreases |pad|
  {
    if |pad| > 0 {
      var last := |pad| - 1;
      assert (t + pad)[|t + pad| - 1] == pad[last] && IsSpace(pad[last]);
      assert (t + pad)[..|t + pad| - 1] == t + pad[..last];
      StripRightSpaces(t, pad[..last]);
      assert StripRight(t + pad) == StripRight(t + pad[..last]);
    } else {
      assert t + pad == t;
    }
  }

  /** `int()` reads back what `str()` writes, with any whitespace around it. */
  lemma ParseIntText(n: int, before: string, after: string)
    requires AllSpaces(before) && AllSpaces(after)
    ensures ParseInt(before + IntText(n) + after) == Some(n)
  {
    StripPadded(before, IntText(n), after);
    ParseText(n);
  }

  /** Whitespace around text that neither starts nor ends with whitespace
      is exactly what `strip()` removes. */
  lemma StripPadded(before: string, s: string, after: string)
    requires AllSpaces(before) && AllSpaces(after)
    requires |s| > 0 && !IsSpace(s[0]) && !IsSpace(s[|s| - 1])
    ensures Strip(before + s + after) == s
  {
    StripLeftSpaces(before, s + after);
    assert before + s + after == before + (s + after);
    assert StripLeft(s + after) == s + after;
    StripRightSpaces(s, after);
    assert StripRight(s) == s;
  }

  lemma ParseText(n: int)
    ensures ParseStripped(IntText(n)) == Some(n)
  {
    var s := IntText(n);
    if n < 0 {
      assert s[1..] == NatText(-n);
      NatTextValue(-n);
      PlainNumeral(s[1..]);
    } else {
      NatTextValue(n);
      PlainNumeral(s);
    }
  }

  /** A half that is empty or only whitespace (as in `"x5"`) is not a number. */
  lemma BlankIsNotANumber(s: string)
    requires AllSpaces(s)
    ensures ParseInt(s) == None
  {
    StripLeftSpaces(s, []);
    assert s + [] == s;
  }

  lemma {:induction false} CountConcat(a: string, b: string, ch: char)
    ensures Count(a + b, ch) == Count(a, ch) + Count(b, ch)
  {
    if |a| > 0 {
      assert (a + b)[1..] == a[1..] + b;
      CountConcat(a[1..], b, ch);
    } else {
      assert a + b == b;
    }
  }

  /** The one separator in `a + [ch] + b`, and the halves either side of it. */
  lemma SplitAround(a: string, ch: char, b: string)
    requires ch !in a && ch !in b
    ensures Count(a + [ch] + b, ch) == 1
    ensures IndexOf(a + [ch] + b, ch) == |a|
    ensures (a + [ch] + b)[..|a|] == a && (a + [ch] + b)[|a| + 1..] == b
  {
    var s := a + [ch] + b;
    CountOnce(a, ch, b);
    IndexOfAfter(a, ch, b);
    assert s[..|a|] == a;
    assert s[|a| + 1..] == b;
  }

  lemma CountOnce(a: string, ch: char, b: string)
    requires ch !in a && ch !in b
    ensures Count(a + [ch] + b, ch) == 1
  {
    CountConcat(a + [ch], b, ch);
    CountConcat(a, [ch], ch);
    assert Count([ch], ch) == 1 by {
      assert [ch][1..] == [];
    }
  }

  lemma IndexOfAfter(a: string, ch: char, b: string)
    requires ch !in a
    ensures IndexOf(a + [ch] + b, ch) == |a|
  {
    var s := a + [ch] + b;
    assert s[|a|] == ch;
  }

  /** Lower-casing a text free of `x` and `X` leaves it free of `x`. */
  lemma LowerNoX(s: string)
    requires 'x' !in s && 'X' !in s
    ensures 'x' !in Lower(s)
  {
    forall i | 0 <= i < |s|
      ensures Lower(s)[i] != 'x'
    {
      assert s[i] != 'x' && s[i] != 'X';
    }
  }

  predicate NoUpper(s: string) {
    forall i :: 0 <= i < |s| ==> !('A' <= s[i] <= 'Z')
  }

  /** A number written by `str()` with whitespace around it holds neither
      an upper-case letter nor an `'x'`. */
  lemma PaddedNumberPlain(before: string, n: int, after: string)
    requires AllSpaces(before) && AllSpaces(after)
    ensures var s := before + IntText(n) + after; NoUpper(s) && 'x' !in s
  {
    var s := before + IntText(n) + after;
    forall i | 0 <= i < |s|
      ensures !('A' <= s[i] <= 'Z') && s[i] != 'x'
    {
      if i < |before| {
        assert s[i] == before[i];
      } else if i < |before| + |IntText(n)| {
        assert s[i] == IntText(n)[i - |before|];
      } else {
        assert s[i] == after[i - |before| - |IntText(n)|];
      }
    }
  }

  /** Text without capitals is its own lower-case form. */
  lemma LowerPlain(s: string)
    requires NoUpper(s)
    ensures Lower(s) == s
  {
  }

  /** Whitespace has no capitals. */
  lemma SpacesPlain(s: string)
    requires AllSpaces(s)
    ensures NoUpper(s) && Lower(s) == s
  {
  }

  /** Lower-casing works on the two halves and the separator separately;
      between two plain halves it only touches the separator. */
  lemma LowerAround(a: string, sep: char, b: string)
    ensures Lower(a + [sep] + b) == Lower(a) + [LowerChar(sep)] + Lower(b)
    ensures NoUpper(a) && NoUpper(b) ==> Lower(a + [sep] + b) == a + [LowerChar(sep)] + b
  {
    var s := a + [sep] + b;
    var t := Lower(a) + [LowerChar(sep)] + Lower(b);
    forall i | 0 <= i < |s|
      ensures Lower(s)[i] == t[i]
    {
      if i < |a| {
        assert s[i] == a[i] && t[i] == Lower(a)[i];
      } else if i > |a| {
        assert s[i] == b[i - |a| - 1] && t[i] == Lower(b)[i - |a| - 1];
      }
    }
    if NoUpper(a) && NoUpper(b) {
      LowerPlain(a);
      LowerPlain(b);
    }
  }
}

=== FILE: wrappers.dfy ===
/** Python's `None` as a value: a lookup that may find nothing. */
module Wrappers {

  datatype Option<+T> = None | Some(value: T)
}
